=== FILE: README.md ===
# can-start-audio-context, modelled in Dafny

The library obtains a running Web Audio context without console warnings. It
decides whether audio may start right now (`check`, helped by the probe
`contextRuns`). If audio may not start yet, `start` waits for a click, a
touchend or a 200 ms poll to flip the verdict, and then resumes a context.

This project models that core with the browser abstracted into inputs:

- `environment.dfy` (`Environment`): the signals the browser exposes. These are
  whether `AudioContext` / `webkitAudioContext` exist, the autoplay-policy
  answer (an `Option`, since the query is missing on most platforms), the
  user-activation flags (an `Option`, since they are missing on iOS 14), and
  the state a newly constructed context starts in. It also holds `Construct`,
  the constructor fallback of `Context()`.
- `oracle.dfy` (`Oracle`): `ContextRuns` and `Check` as pure functions that
  return the verdict and the throwaway contexts they opened and closed, or the
  "Audio Context is not defined" error. `Permitted` is an independent
  statement of when audio counts as allowed; `Check` is proved to agree with it.
- `waiter.dfy` (`Waiter`): `start` as a state record. `Start` is the promise
  executor. `Done` is the finaliser. `Step` handles one event: `Click`,
  `TouchEnd`, `Tick(signals)` or `Settle(i, ok)`, the settling of the i-th
  `resume()` call. `Run` folds `Step` over a sequence of events. The record
  tracks the `init`/`resolved` flag and the armed listeners and interval. It
  also records every `resume()` call, which of them settled or succeeded,
  every `resolve` call, and whether the executor threw.
- `traces.dfy` (`Traces`): lemmas about every trace the waiter produces. Most
  rest on `Waiter.Inv`, the invariant every reachable state keeps. Under it,
  `resolve` was called at most once, and exactly when the state is `resolved`.
  The state is `resolved` exactly when some resume succeeded, and the resolved
  context is one of those. An armed interval means the state is still `init`.
  A thrown executor leaves nothing armed and nothing resumed. Resumes go to the
  caller's context, or else the i-th resume goes to the i-th constructed context.

Behaviour of the code that the model keeps, where a reader might expect otherwise:

- `state` becomes `resolved` only when a `resume()` succeeds. Every trigger
  that arrives before that calls `resume()` again. Without a caller's context,
  each of those calls constructs a new context. Only the first to succeed is
  passed to `resolve`; the others are never closed (`Traces.TwoTriggersTwoResumes`).
- The click and touchend listeners are not removed when the waiter resolves.
  They stay registered until they fire once, and then do nothing. Only the
  interval is cleared, and every successful resume clears it.
- There is no rejection state, grace period or blocked-audio error. A failed
  `resume()` is only logged. The promise of `start` rejects only when its
  executor throws. That happens when no constructor exists and a throwaway
  context must be built (`Traces.StartRejectsIff`).
- When `start` resumes at once (index.ts:89-91 or 99-101), it returns before
  arming any listener or the interval. If that resume fails, it is only
  logged, nothing calls `done` again, and the promise of `start` never
  settles. One example is a caller's closed context on a page whose policy
  query answers "allowed" (`Traces.ImmediateFailureHangs`,
  `Traces.ClosedContextHangs`). Retry after a failed resume only happens when
  the interval or a listener is still armed.
- A tick calls `check()` without the caller's context. Only the immediate
  check looks at that context's state.

## Model

| member | source | states |
|---|---|---|
| Environment.Construct | index.ts:13-21 | the standard constructor is used when present, else the prefixed one; construction fails exactly when neither exists |
| Oracle.ContextRuns | index.ts:33-45 | with a supplied context: its state is running, no probe; without one: fails exactly when no constructor exists, else opens exactly one throwaway context of the preferred kind, closes it, and answers whether it started running |
| Oracle.Check | index.ts:47-60 | a running supplied context gives true with no probe; a present policy query alone decides (true iff "allowed"); it fails only when the probe is needed and no constructor exists; a successful verdict is true iff `Permitted`; any probe it opens is closed, and it probes only when no policy, no active gesture but a past gesture |
| Oracle.PolicyOverridesActivation | index.ts:51-52 | where the policy query exists, two environments with the same policy answer give the same result, whatever their activation flags or probe outcome |
| Oracle.ActivationLadder | index.ts:54-59 | without a policy query and without a running caller's context: an active gesture gives true with no probe; otherwise a past gesture gives exactly a fresh probe's outcome; otherwise (including missing user activation) false with no probe; only the probe rung needs a constructor |
| Waiter.Done | index.ts:74-79 | outside `init` nothing changes; in `init` it appends one resume on the caller's context, or else, exactly when a constructor exists, on a newly constructed context of the preferred kind, numbered by the construction count; a context is constructed only on that last branch; nothing else changes, so it never resolves, arms or disarms by itself |
| Waiter.Start | index.ts:89-125 | the promise executor leaves the waiter `init` with nothing settled or resolved; the listeners and interval are armed together, and exactly when audio is not permitted and the one-off probe (without a policy query) can run and does not find a running context; when armed, or when the executor threw, no resume was issued; at most one resume is issued |
| Waiter.Step | index.ts:80-125 | no event changes whether a context was supplied or which constructors exist; resumes and resolve calls are only appended to; no listener or interval is armed again; `resolved` is final; a settling resume issues no resume; a trigger or tick changes neither the state nor the resolve calls nor the settled set |
| Waiter.Run | index.ts:104-125 | over any sequence of events: the caller's context and the constructors stay fixed, resumes and resolve calls are only appended to, a disarmed listener or interval stays disarmed, and `resolved` is final |
| Traces.StartEstablishesInvariant | index.ts:70-127 | every state `start` leaves behind satisfies the waiter invariant |
| Traces.DoneKeepsInvariant | index.ts:74-87 | the finaliser preserves the invariant |
| Traces.SettleKeepsInvariant | index.ts:80-86 | a settling resume preserves the invariant; the success of an unsettled resume while `init` makes exactly that resumed context the one resolve call |
| Traces.StepKeepsInvariant | index.ts:104-125 | every listener, tick and settle event preserves the invariant |
| Traces.RunKeepsInvariant | index.ts:70-127 | every sequence of events preserves the invariant |
| Traces.ResolvesAtMostOnce | index.ts:74-86 | after any trace `resolve` was called at most once, exactly when the state is `resolved`, and with a context whose resume succeeded |
| Traces.ResumedContexts | index.ts:76-79 | with a caller's context every resume is on it and nothing is constructed; without one the i-th resume is on the i-th constructed context, all distinct, and as many contexts were constructed as resumes issued |
| Traces.StepAfterResolve | index.ts:75-75 | once resolved, any event keeps the state resolved, issues no resume, constructs nothing and does not resolve again; a trigger also probes nothing |
| Traces.ResolvedIsFinal | index.ts:82-84 | once resolved, any further events keep the state, the resumes and the resolve calls unchanged |
| Traces.FailedResumeKeepsWaiting | index.ts:80-86 | a failed resume leaves the state, the listeners, the interval, the resumes and the resolve calls as they were, only recording that it settled |
| Traces.StrandedStaysPending | index.ts:86-86 | a pending waiter with nothing armed and every resume settled stays `init` forever, issues no resume and never resolves |
| Traces.ImmediateFailureHangs | index.ts:89-102 | when `start` resumes at once (the first check allows, or there is no policy query and a new context runs) and a context can be resumed, the one immediate resume failing leaves `start` pending forever, whatever events follow |
| Traces.ClosedContextHangs | index.ts:89-91 | a caller's closed context on a page whose policy answers "allowed": its failed resume leaves `start` pending forever with that single resume |
| Traces.AllowingTickResumes | index.ts:120-123 | a tick whose `check()` allows makes a pending waiter issue one more resume (on the caller's context when one was given) and leaves it `init` with the interval still armed |
| Traces.TickThenResumeResolves | index.ts:120-123 | an allowing tick followed by the success of the resume it issued resolves with exactly that context and clears the interval |
| Traces.IntervalClearedOnlyBySuccess | index.ts:120-125 | an armed interval is cleared by an event if and only if it is the success of an unsettled resume |
| Traces.ImmediateStartArmsNothing | index.ts:89-102 | when the first check allows, or there is no policy query and a new context runs, `start` arms no listener and no interval and issues one resume at once (none when no context exists and none can be built) |
| Traces.WaitingStartArmsAll | index.ts:99-125 | when audio is not permitted and, without a policy query, the one-off probe can be built and finds no running context, `start` arms both listeners and the interval and issues no resume |
| Traces.StartRejectsIff | index.ts:89-102 | the promise of `start` rejects exactly when no constructor exists, no running context was supplied, there is no policy query and no gesture is active |
| Traces.RunningContextStartsAtOnce | index.ts:89-91 | a supplied running context is resumed at once, with no probe, no construction and nothing armed |
| Traces.RefusingTicksKeepPending | index.ts:120-125 | ticks whose `check()` does not allow leave a pending waiter pending, with no resume and no resolve |
| Traces.ClickThenResumeResolves | index.ts:104-110 | a click on a pending waiter followed by the success of the resume it issued resolves with exactly that context and leaves the interval cleared |
| Traces.TouchEndResumesNewContext | index.ts:112-118 | without a caller's context, a touchend on a pending waiter constructs a new context of the preferred kind and resumes it even while earlier resumes are unsettled; the waiter stays `init`, the touchend listener is gone and the interval is untouched |
| Traces.TwoTriggersTwoResumes | index.ts:74-86 | for example, on a page with only the standard constructor and no gesture yet, a click and a touchend before any resume settles issue two resumes on two new contexts; their successes still resolve once, with the first to succeed |

## Left out

- `serve.ts` and `build.ts`: a static file server and a build script, pure I/O.
- The ambient global declarations and the `isNavigatorWithAutoPlayPolicy` guard (index.ts:1-11, 23-31): the policy query's presence is the `Option` in `Signals.policy`.
- The `AudioContextOptions` of `start`: only `done` passes them to `Context()` (index.ts:77); the probe constructs with none (index.ts:37). Their only possible effect is to make the browser's constructor throw, which the next line covers.
- Environment.Construct: fails only when neither `AudioContext` nor `webkitAudioContext` exists. A browser constructor that itself throws is not modelled, for example on unsupported `contextOptions` such as a `sampleRate` it rejects. In the code such a throw inside `done` rejects only `done`'s own promise and issues no resume, on every trigger, so `start` never resolves. `Waiter.Done`, `Traces.ResumedContexts` and `Traces.StartRejectsIff` inherit this assumption.
- The real effects of `resume()` and `close()`, `console.warn`, `addEventListener` and `setInterval`: these are browser calls. Their outcomes are inputs (`Settle` events, `Signals.newState`). A probe's `close()` is recorded as an effect. A rejected `close()` is not acted on: `.catch()` has no handler, so it becomes an unhandled rejection, which the model does not represent.
- The 200 ms cadence, wall-clock time and microtask ordering: a tick is an event, and a `resume()` settles whenever a `Settle` event says so. A `Settle` naming a call that was never issued or has already settled changes nothing.
- The two probes one `start` call may run (inside `check` and at index.ts:99) read the same `Signals` snapshot, since both run in the same synchronous turn.
- `Signals` carries both the answers and the presence of the policy query and of user activation, and each tick brings its own `Signals`. A trace may therefore gain or lose one of these capabilities between `start` and a tick, which a real page cannot. This over-approximates the page. The lemmas about all traces still hold of the real ones.
- Whether a caller's context changes state later on: its state is read only by the immediate check, so the model keeps only that one value.
- Contexts constructed by `done` whose resume lost the race are never closed by the code. The model records them in `resumes` but tracks no further lifecycle for them.

=== FILE: environment.dfy ===
/**
 * The browser as the library sees it: which audio-context constructors exist,
 * what the autoplay-policy query answers, the user-activation flags, and the
 * state a context constructed right now would start in.
 */
module Environment {
  import opened Wrappers

  /** The states an audio context can report. */
  datatype ContextState = Suspended | Running | Closed | Interrupted

  /** Which global constructor built a context. */
  datatype Kind = Standard | Webkit

  /** Whether the page can see `AudioContext` and `webkitAudioContext`. */
  datatype Constructors = Constructors(standard: bool, webkit: bool)

  /** An answer of the autoplay-policy query for "audiocontext". */
  datatype Policy = Allowed | Disallowed

  /** The user-activation flags of the navigator. */
  datatype Activation = Activation(isActive: bool, hasBeenActive: bool)

  /**
   * The signals at one instant. `policy` is None where the navigator has no
   * autoplay-policy query, `activation` is None where it has no user
   * activation (iOS 14), and `newState` is the state a context constructed at
   * this instant starts in.
   */
  datatype Signals = Signals(policy: Option<Policy>, activation: Option<Activation>, newState: ContextState)

  /** Constructor availability is fixed for the page; the signals change over time. */
  datatype Env = Env(ctors: Constructors, signals: Signals)

  /** The only error the core raises: no audio-context constructor at all. */
  datatype Error = ContextUndefined

  /** True when at least one audio-context constructor exists. */
  predicate Supported(ctors: Constructors) {
    ctors.standard || ctors.webkit
  }

  /**
   * Builds an audio context: the standard constructor when it exists, else the
   * prefixed one, else the "Audio Context is not defined" error.
   */
  function Construct(ctors: Constructors): (r: Result<Kind, Error>)
    ensures r.Failure? <==> !Supported(ctors)
    ensures r.Success? ==> (r.value == Standard <==> ctors.standard)
    ensures r == Success(Webkit) ==> ctors.webkit
  {
    if !ctors.standard then
      if !ctors.webkit then Failure(ContextUndefined) else Success(Webkit)
    else
      Success(Standard)
  }
}

=== FILE: oracle.dfy ===
/**
 * The permission oracle: `contextRuns` (an empirical probe on a throwaway
 * context) and `check` (the priority-ordered decision over the signals).
 */
module Oracle {
  import opened Wrappers
  import opened Environment

  /** A throwaway context being constructed or closed. */
  datatype ProbeEffect = Open(kind: Kind) | Close(kind: Kind)

  /** A verdict together with the throwaway contexts touched to reach it. */
  datatype Observation = Observation(allowed: bool, effects: seq<ProbeEffect>)

  /** No throwaway context is left open: none was made, or one was opened and then closed. */
  predicate ProbeClosed(effects: seq<ProbeEffect>) {
    effects == [] || (|effects| == 2 && effects[0].Open? && effects[1] == Close(effects[0].kind))
  }

  /** The number of throwaway contexts a balanced effect log opened. */
  function ProbeCount(effects: seq<ProbeEffect>): nat {
    |effects| / 2
  }

  /** True when a context is supplied and reports `running`. */
  predicate IsRunning(ctx: Option<ContextState>) {
    ctx == Some(Running)
  }

  /**
   * `contextRuns`: with a supplied context, whether it runs; without one,
   * whether a freshly constructed throwaway context runs, closing it on
   * either answer.
   */
  function ContextRuns(env: Env, ctx: Option<ContextState>): (r: Result<Observation, Error>)
    ensures ctx.Some? ==> r.Success? && r.value.effects == [] && (r.value.allowed <==> ctx.value == Running)
    ensures ctx.None? ==> (r.Failure? <==> !Supported(env.ctors))
    ensures ctx.None? && r.Success? ==>
      && ProbeCount(r.value.effects) == 1
      && ProbeClosed(r.value.effects)
      && Construct(env.ctors) == Success(r.value.effects[0].kind)
      && (r.value.allowed <==> env.signals.newState == Running)
  {
    match ctx
    case Some(s) => Success(Observation(s == Running, []))
    case None =>
      match Construct(env.ctors)
      case Failure(e) => Failure(e)
      case Success(k) =>
        if env.signals.newState == Running then
          Success(Observation(true, [Open(k), Close(k)]))
        else
          Success(Observation(false, [Open(k), Close(k)]))
  }

  /** The user is inside a gesture right now. */
  predicate ActiveNow(s: Signals) {
    s.activation.Some? && s.activation.value.isActive
  }

  /** The user has interacted with the page at some point. */
  predicate ActiveBefore(s: Signals) {
    s.activation.Some? && s.activation.value.hasBeenActive
  }

  /** The decision falls through to the empirical probe. */
  predicate ProbeNeeded(env: Env, ctx: Option<ContextState>) {
    !IsRunning(ctx) && env.signals.policy.None? && !ActiveNow(env.signals) && ActiveBefore(env.signals)
  }

  /**
   * An independent statement of when audio counts as allowed: one of four
   * sufficient situations, each with the conditions of the higher-priority
   * signals spelled out.
   */
  predicate Permitted(env: Env, ctx: Option<ContextState>) {
    var s := env.signals;
    || IsRunning(ctx)
    || s.policy == Some(Allowed)
    || (s.policy.None? && ActiveNow(s))
    || (s.policy.None? && ActiveBefore(s) && s.newState == Running)
  }

  /**
   * `check`: a running supplied context wins; otherwise the policy query
   * decides where it exists; otherwise an active gesture allows, a past
   * gesture defers to the probe, and anything else refuses.
   */
  function Check(env: Env, ctx: Option<ContextState>): (r: Result<Observation, Error>)
    ensures IsRunning(ctx) ==> r == Success(Observation(true, []))
    ensures !IsRunning(ctx) && env.signals.policy.Some? ==>
      r == Success(Observation(env.signals.policy.value == Allowed, []))
    ensures r.Failure? <==> ProbeNeeded(env, ctx) && !Supported(env.ctors)
    ensures r.Success? ==> (r.value.allowed <==> Permitted(env, ctx))
    ensures r.Success? ==> ProbeClosed(r.value.effects)
    ensures r.Success? && r.value.effects != [] ==> ProbeNeeded(env, ctx)
  {
    if IsRunning(ctx) then
      Success(Observation(true, []))
    else
      match env.signals.policy
      case Some(p) => Success(Observation(p == Allowed, []))
      case None =>
        if ActiveNow(env.signals) then
          Success(Observation(true, []))
        else if ActiveBefore(env.signals) then
          ContextRuns(env, None)
        else
          Success(Observation(false, []))
  }

  /** Where the policy query exists, user activation and the probe outcome do not affect the verdict. */
  lemma PolicyOverridesActivation(env1: Env, env2: Env, ctx: Option<ContextState>)
    requires env1.signals.policy.Some? && env1.signals.policy == env2.signals.policy
    ensures Check(env1, ctx) == Check(env2, ctx)
  {
  }

  /**
   * Without a policy query and without a running caller's context, the
   * verdict is the activation ladder: an active gesture allows, a past
   * gesture defers to a fresh probe, and anything else (including missing
   * user activation) refuses. Only the probe rung can fail.
   */
  lemma ActivationLadder(env: Env, ctx: Option<ContextState>)
    requires env.signals.policy.None? && !IsRunning(ctx)
    ensures ActiveNow(env.signals) ==> Check(env, ctx) == Success(Observation(true, []))
    ensures !ActiveNow(env.signals) && ActiveBefore(env.signals) ==> Check(env, ctx) == ContextRuns(env, None)
    ensures !ActiveNow(env.signals) && !ActiveBefore(env.signals) ==> Check(env, ctx) == Success(Observation(false, []))
  {
  }
}

=== FILE: traces.dfy ===
/** Properties of the traces the waiter produces. */
module Traces {
  import opened Wrappers
  import opened Environment
  import opened Oracle
  import opened Waiter

  /** Every state `start` can leave behind satisfies the invariant. */
  lemma StartEstablishesInvariant(env: Env, ctx: Option<ContextState>)
    ensures Inv(Start(env, ctx))
  {
  }

  /** `done` preserves the invariant. */
  lemma DoneKeepsInvariant(w: State)
    requires Inv(w) && w.rejected.None?
    ensures Inv(Done(w))
  {
    var w' := Done(w);
    if w.resolved != [] {
      var j :| j in w.succeeded && j < |w.resumes| && w.resumes[j] == w.resolved[0];
      assert w'.resumes[j] == w'.resolved[0];
    }
  }

  /** A settling resume preserves the invariant. */
  lemma SettleKeepsInvariant(w: State, i: nat, ok: bool)
    requires Inv(w)
    ensures Inv(Step(w, Settle(i, ok)))
    ensures ok && w.phase == Init && i < |w.resumes| && i !in w.settled ==>
      Step(w, Settle(i, ok)).resolved == [w.resumes[i]]
  {
    var w' := Step(w, Settle(i, ok));
    if i < |w.resumes| && i !in w.settled && ok && w.phase == Init {
      assert w'.resolved == [w.resumes[i]];
      assert i in w'.succeeded && w'.resumes[i] == w'.resolved[0];
    } else if w.resolved != [] {
      var j :| j in w.succeeded && j < |w.resumes| && w.resumes[j] == w.resolved[0];
      assert j in w'.succeeded && w'.resumes[j] == w'.resolved[0];
    }
  }

  /** Every event preserves the invariant. */
  lemma StepKeepsInvariant(w: State, e: Event)
    requires Inv(w)
    ensures Inv(Step(w, e))
  {
    match e
    case Click =>
      if w.clickArmed { DoneKeepsInvariant(w.(clickArmed := false)); }
    case TouchEnd =>
      if w.touchArmed { DoneKeepsInvariant(w.(touchArmed := false)); }
    case Tick(s) =>
      if w.intervalArmed {
        var r := Check(Env(w.ctors, s), None);
        if r.Success? {
          DoneKeepsInvariant(w.(probes := w.probes + ProbeCount(r.value.effects)));
        }
      }
    case Settle(i, ok) =>
      SettleKeepsInvariant(w, i, ok);
  }

  /** Any sequence of events preserves the invariant. */
  lemma {:induction false} RunKeepsInvariant(w: State, es: seq<Event>)
    requires Inv(w)
    ensures Inv(Run(w, es))
    decreases |es|
  {
    if es != [] {
      StepKeepsInvariant(w, es[0]);
      RunKeepsInvariant(Step(w, es[0]), es[1..]);
    }
  }

  /**
   * Whatever happens after `start`, `resolve` is called at most once, exactly
   * when the state is `resolved`, and with a context whose `resume()`
   * succeeded.
   */
  lemma ResolvesAtMostOnce(env: Env, ctx: Option<ContextState>, es: seq<Event>)
    ensures var w := Run(Start(env, ctx), es);
      && |w.resolved| <= 1
      && (w.phase == Resolved <==> |w.resolved| == 1)
      && (w.resolved != [] ==>
            exists i :: i in w.succeeded && i < |w.resumes| && w.resumes[i] == w.resolved[0])
  {
    StartEstablishesInvariant(env, ctx);
    RunKeepsInvariant(Start(env, ctx), es);
  }

  /**
   * After `start`, a caller's context is the only one ever resumed and
   * nothing is constructed for it; without one, each resume is on a context
   * of its own, constructed for that call.
   */
  lemma ResumedContexts(env: Env, ctx: Option<ContextState>, es: seq<Event>)
    ensures var w := Run(Start(env, ctx), es);
      && (ctx.Some? ==> w.made == 0 && forall i :: 0 <= i < |w.resumes| ==> w.resumes[i] == Supplied)
      && (ctx.None? ==>
            && w.made == |w.resumes|
            && (forall i :: 0 <= i < |w.resumes| ==>
                  w.resumes[i].Made? && w.resumes[i] == Made(i, w.resumes[i].kind))
            && forall i, j :: 0 <= i < j < |w.resumes| ==> w.resumes[i] != w.resumes[j])
  {
    StartEstablishesInvariant(env, ctx);
    RunKeepsInvariant(Start(env, ctx), es);
    var w := Run(Start(env, ctx), es);
    assert HandlesWellFormed(w);
    if ctx.None? {
      forall i, j | 0 <= i < j < |w.resumes|
        ensures w.resumes[i] != w.resumes[j]
      {
        assert w.resumes[i].n == i && w.resumes[j].n == j;
      }
    }
  }

  /** A waiter that has resolved stays resolved, issues no resume and never resolves again. */
  lemma StepAfterResolve(w: State, e: Event)
    requires Inv(w) && w.phase == Resolved
    ensures Step(w, e).phase == Resolved
    ensures Step(w, e).resumes == w.resumes && Step(w, e).made == w.made
    ensures Step(w, e).resolved == w.resolved
    ensures !e.Settle? ==> Step(w, e).probes == w.probes && !Step(w, e).intervalArmed
  {
  }

  /** The same over any number of further events. */
  lemma {:induction false} ResolvedIsFinal(w: State, es: seq<Event>)
    requires Inv(w) && w.phase == Resolved
    ensures Run(w, es).phase == Resolved
    ensures Run(w, es).resumes == w.resumes
    ensures Run(w, es).resolved == w.resolved
    decreases |es|
  {
    if es != [] {
      StepAfterResolve(w, es[0]);
      StepKeepsInvariant(w, es[0]);
      ResolvedIsFinal(Step(w, es[0]), es[1..]);
    }
  }

  /**
   * A failed resume changes nothing but the record that it settled: the
   * state, the listeners and the interval stay as they were. It re-arms
   * nothing, so a waiter with nothing armed gets no further chance.
   */
  lemma FailedResumeKeepsWaiting(w: State, i: nat)
    requires i < |w.resumes| && i !in w.settled
    ensures var w' := Step(w, Settle(i, false));
      && w'.phase == w.phase
      && w'.intervalArmed == w.intervalArmed
      && w'.clickArmed == w.clickArmed && w'.touchArmed == w.touchArmed
      && w'.resumes == w.resumes && w'.resolved == w.resolved
      && w'.settled == w.settled + {i}
  {
  }

  /** The interval is cleared by a successful resume and by nothing else. */
  lemma IntervalClearedOnlyBySuccess(w: State, e: Event)
    requires w.intervalArmed
    ensures !Step(w, e).intervalArmed <==>
      e.Settle? && e.ok && e.index < |w.resumes| && e.index !in w.settled
  {
  }

  /**
   * When the immediate check allows audio, or there is no policy query and a
   * fresh context already runs, `start` resumes at once and arms no listener
   * and no interval.
   */
  lemma ImmediateStartArmsNothing(env: Env, ctx: Option<ContextState>)
    requires Check(env, ctx).Success?
    requires Check(env, ctx).value.allowed ||
      (env.signals.policy.None? && env.signals.newState == Running && Supported(env.ctors))
    ensures var w := Start(env, ctx);
      && w.rejected.None? && w.phase == Init
      && !w.clickArmed && !w.touchArmed && !w.intervalArmed
      && |w.resumes| == (if ctx.Some? || Supported(env.ctors) then 1 else 0)
  {
  }

  /** Otherwise, unless the executor threw, `start` arms both listeners and the interval and resumes nothing yet. */
  lemma WaitingStartArmsAll(env: Env, ctx: Option<ContextState>)
    requires !Permitted(env, ctx)
    requires env.signals.policy.None? ==> Supported(env.ctors) && env.signals.newState != Running
    ensures var w := Start(env, ctx);
      && w.rejected.None?
      && w.clickArmed && w.touchArmed && w.intervalArmed
      && w.resumes == []
  {
  }

  /**
   * `start`'s promise rejects exactly when no constructor exists and the
   * executor has to construct a throwaway context: no running context, no
   * policy query and no gesture in progress.
   */
  lemma StartRejectsIff(env: Env, ctx: Option<ContextState>)
    ensures Start(env, ctx).rejected.Some? <==>
      !Supported(env.ctors) && !IsRunning(ctx) && env.signals.policy.None? && !ActiveNow(env.signals)
  {
  }

  /** A caller's context that already runs is resumed at once, with no probe and nothing armed. */
  lemma RunningContextStartsAtOnce(env: Env)
    ensures var w := Start(env, Some(Running));
      && w.resumes == [Supplied] && w.probes == 0 && w.made == 0
      && !w.clickArmed && !w.touchArmed && !w.intervalArmed
  {
  }

  /** Ticks whose `check()` refuses leave a pending waiter pending, with no resume issued. */
  lemma {:induction false} RefusingTicksKeepPending(w: State, es: seq<Event>)
    requires w.phase == Init
    requires forall k :: 0 <= k < |es| ==> es[k].Tick? && !Allows(w.ctors, es[k].signals)
    ensures Run(w, es).phase == Init
    ensures Run(w, es).resumes == w.resumes
    ensures Run(w, es).resolved == w.resolved
    decreases |es|
  {
    if es != [] {
      var w' := Step(w, es[0]);
      assert w'.ctors == w.ctors;
      RefusingTicksKeepPending(w', es[1..]);
    }
  }

  /**
   * A pending waiter with nothing armed and no resume left unsettled is
   * stuck: no event can make it issue a resume or resolve.
   */
  lemma {:induction false} StrandedStaysPending(w: State, es: seq<Event>)
    requires Inv(w) && w.phase == Init
    requires !w.clickArmed && !w.touchArmed && !w.intervalArmed
    requires forall i :: 0 <= i < |w.resumes| ==> i in w.settled
    ensures Run(w, es).phase == Init
    ensures Run(w, es).resumes == w.resumes
    ensures Run(w, es).resolved == []
    decreases |es|
  {
    if es != [] {
      var w' := Step(w, es[0]);
      StepKeepsInvariant(w, es[0]);
      assert w'.resumes == w.resumes && w'.phase == Init;
      StrandedStaysPending(w', es[1..]);
    }
  }

  /**
   * When `start` resumes at once, after the first check or after the one-off
   * probe, and that resume fails, the promise never settles: the early return
   * skipped the listeners and the interval, so nothing calls `done` again.
   */
  lemma ImmediateFailureHangs(env: Env, ctx: Option<ContextState>, es: seq<Event>)
    requires Check(env, ctx).Success?
    requires Check(env, ctx).value.allowed ||
      (env.signals.policy.None? && env.signals.newState == Running && Supported(env.ctors))
    requires ctx.Some? || Supported(env.ctors)
    ensures var w := Run(Step(Start(env, ctx), Settle(0, false)), es);
      w.phase == Init && w.resolved == [] && |w.resumes| == 1
  {
    var w0 := Start(env, ctx);
    StartEstablishesInvariant(env, ctx);
    ImmediateStartArmsNothing(env, ctx);
    assert |w0.resumes| == 1;
    var w1 := Step(w0, Settle(0, false));
    StepKeepsInvariant(w0, Settle(0, false));
    assert 0 in w1.settled;
    StrandedStaysPending(w1, es);
  }

  /** A caller's closed context on a page whose policy answers "allowed" is the case above. */
  lemma ClosedContextHangs(ctors: Constructors, es: seq<Event>)
    ensures var env := Env(ctors, Signals(Some(Allowed), None, Suspended));
      var w := Run(Step(Start(env, Some(Closed)), Settle(0, false)), es);
      w.phase == Init && w.resolved == [] && w.resumes == [Supplied]
  {
    var env := Env(ctors, Signals(Some(Allowed), None, Suspended));
    ImmediateFailureHangs(env, Some(Closed), es);
    ResumedContexts(env, Some(Closed), [Settle(0, false)] + es);
    assert Run(Start(env, Some(Closed)), [Settle(0, false)] + es)
        == Run(Step(Start(env, Some(Closed)), Settle(0, false)), es);
  }

  /** A tick whose `check()` allows makes a pending waiter issue one more resume; the interval stays armed until it succeeds. */
  lemma AllowingTickResumes(w: State, s: Signals)
    requires Inv(w) && w.phase == Init && w.intervalArmed
    requires Allows(w.ctors, s)
    requires w.supplied || Supported(w.ctors)
    ensures var w' := Step(w, Tick(s));
      && w'.phase == Init
      && |w'.resumes| == |w.resumes| + 1
      && w'.intervalArmed
      && (w.supplied ==> w'.resumes[|w.resumes|] == Supplied)
  {
  }

  /** An allowing tick followed by the success of the resume it issued resolves with that context and clears the interval. */
  lemma TickThenResumeResolves(w: State, s: Signals)
    requires Inv(w) && w.phase == Init && w.intervalArmed
    requires Allows(w.ctors, s)
    requires w.supplied || Supported(w.ctors)
    ensures var n := |w.resumes|;
      var w' := Run(w, [Tick(s), Settle(n, true)]);
      && w'.phase == Resolved
      && |w'.resumes| == n + 1
      && w'.resolved == [w'.resumes[n]]
      && !w'.intervalArmed
  {
    var n := |w.resumes|;
    var w1 := Step(w, Tick(s));
    AllowingTickResumes(w, s);
    assert n !in w1.settled;
    var w2 := Step(w1, Settle(n, true));
    assert w2.resolved == [w1.resumes[n]];
    assert [Tick(s), Settle(n, true)][1..] == [Settle(n, true)];
    assert [Settle(n, true)][1..] == [];
    assert Run(w1, [Settle(n, true)]) == Run(w2, []) == w2;
    assert Run(w, [Tick(s), Settle(n, true)]) == Run(w1, [Settle(n, true)]);
  }

  /**
   * A touchend on a pending waiter without a caller's context constructs a
   * new context and resumes it, even while earlier resumes are still
   * unsettled; the waiter stays `init` and the interval is untouched.
   */
  lemma TouchEndResumesNewContext(w: State)
    requires Inv(w) && w.phase == Init && w.touchArmed
    requires !w.supplied && Supported(w.ctors)
    ensures var w' := Step(w, TouchEnd);
      && w'.resumes == w.resumes + [Made(w.made, Construct(w.ctors).value)]
      && w'.made == w.made + 1
      && w'.phase == Init && !w'.touchArmed
      && w'.intervalArmed == w.intervalArmed && w'.settled == w.settled
  {
  }

  /** A click on a pending waiter followed by the success of the resume it issues resolves with that context. */
  lemma ClickThenResumeResolves(w: State)
    requires Inv(w) && w.phase == Init && w.clickArmed
    requires w.supplied || Supported(w.ctors)
    ensures var n := |w.resumes|;
      var w' := Run(w, [Click, Settle(n, true)]);
      && w'.phase == Resolved
      && |w'.resumes| == n + 1
      && w'.resolved == [w'.resumes[n]]
      && !w'.intervalArmed && !w'.clickArmed
  {
    var n := |w.resumes|;
    var w1 := Step(w, Click);
    assert |w1.resumes| == n + 1;
    assert n !in w1.settled;
    var w2 := Step(w1, Settle(n, true));
    assert w2.resolved == [w1.resumes[n]];
    assert [Click, Settle(n, true)][1..] == [Settle(n, true)];
    assert [Settle(n, true)][1..] == [];
    assert Run(w1, [Settle(n, true)]) == Run(w2, []) == w2;
    assert Run(w, [Click, Settle(n, true)]) == Run(w1, [Settle(n, true)]);
  }

  /** The signals of a page with no policy query and no gesture yet, where contexts start suspended. */
  function Idle(): Signals {
    Signals(None, Some(Activation(false, false)), Suspended)
  }

  /**
   * Two triggers that arrive before either resume settles each issue a
   * resume, on two different contexts; the later successes still resolve
   * only once, with the first context to succeed.
   */
  lemma TwoTriggersTwoResumes()
    ensures var env := Env(Constructors(true, false), Idle());
      var w := Run(Start(env, None), [Click, TouchEnd]);
      && w.resumes == [Made(0, Standard), Made(1, Standard)]
      && w.phase == Init
      && Run(w, [Settle(1, true), Settle(0, true)]).resolved == [Made(1, Standard)]
  {
    var env := Env(Constructors(true, false), Idle());
    var w0 := Start(env, None);
    assert w0.clickArmed && w0.touchArmed && w0.resumes == [];
    var w1 := Step(w0, Click);
    var w2 := Step(w1, TouchEnd);
    assert [Click, TouchEnd][1..] == [TouchEnd];
    assert Run(w0, [Click, TouchEnd]) == w2;
    var w3 := Step(w2, Settle(1, true));
    assert [Settle(1, true), Settle(0, true)][1..] == [Settle(0, true)];
    assert Run(w2, [Settle(1, true), Settle(0, true)]) == Step(w3, Settle(0, true));
  }
}

=== FILE: waiter.dfy ===
/**
 * `start` and its finaliser `done` as a pure state machine. The promise, the
 * DOM listeners and the interval timer become fields of a state record; a
 * click, a touchend, an interval tick and the settling of a `resume()` call
 * become events.
 */
module Waiter {
  import opened Wrappers
  import opened Environment
  import opened Oracle

  /**
   * The waiter's `state` variable. Its declared type also admits "rejected",
   * but nothing ever assigns that value, so it is not a state here.
   */
  datatype Phase = Init | Resolved

  /** The context a `resume()` call is issued on: the caller's, or the n-th one `done` constructed. */
  datatype Handle = Supplied | Made(n: nat, kind: Kind)

  /**
   * Everything one call of `start` keeps between turns of the event loop.
   * `resumes` lists every `resume()` call in issue order; `settled` and
   * `succeeded` hold the indices of those that have settled and of those that
   * succeeded; `resolved` lists every call of the promise's `resolve`.
   * `rejected` holds the error when the promise's executor threw.
   */
  datatype State = State(
    supplied: bool,
    ctors: Constructors,
    phase: Phase,
    rejected: Option<Error>,
    clickArmed: bool,
    touchArmed: bool,
    intervalArmed: bool,
    resumes: seq<Handle>,
    settled: set<nat>,
    succeeded: set<nat>,
    resolved: seq<Handle>,
    made: nat,
    probes: nat)

  /** What can happen to a waiting `start` call. */
  datatype Event =
    | Click
    | TouchEnd
    | Tick(signals: Signals)
    | Settle(index: nat, ok: bool)

  /**
   * `done`: while the state is still `init`, resume the supplied context or a
   * newly constructed one. A construction that throws rejects only `done`'s
   * own promise, which nobody awaits, so no resume is issued.
   */
  function Done(w: State): (w': State)
    ensures w.phase != Init ==> w' == w
    ensures w'.phase == w.phase && w'.resolved == w.resolved && w'.succeeded == w.succeeded
    ensures w.resumes <= w'.resumes && |w'.resumes| <= |w.resumes| + 1
    ensures w.phase == Init && w.supplied ==> w'.resumes == w.resumes + [Supplied]
    ensures w.phase == Init && !w.supplied ==>
      (|w'.resumes| == |w.resumes| + 1 <==> Supported(w.ctors))
    ensures w.phase == Init && !w.supplied && Supported(w.ctors) ==>
      && w'.resumes == w.resumes + [Made(w.made, Construct(w.ctors).value)]
      && w'.made == w.made + 1
    ensures w'.(resumes := w.resumes, made := w.made) == w
    ensures w'.made == (if w.phase == Init && !w.supplied && Supported(w.ctors) then w.made + 1 else w.made)
  {
    if w.phase != Init then
      w
    else if w.supplied then
      w.(resumes := w.resumes + [Supplied])
    else
      match Construct(w.ctors)
      case Failure(_) => w
      case Success(k) => w.(resumes := w.resumes + [Made(w.made, k)], made := w.made + 1)
  }

  /** Register the click and touchend listeners and the polling interval. */
  function Arm(w: State): State {
    w.(clickArmed := true, touchArmed := true, intervalArmed := true)
  }

  /**
   * The body of `start`'s promise executor, run synchronously: the immediate
   * check, the one-off probe when there is no policy query, and otherwise the
   * arming of the triggers.
   */
  function Start(env: Env, ctx: Option<ContextState>): (w: State)
    ensures w.supplied == ctx.Some? && w.ctors == env.ctors && w.phase == Init
    ensures w.resolved == [] && w.settled == {} && w.succeeded == {}
    ensures w.clickArmed == w.intervalArmed && w.touchArmed == w.intervalArmed
    ensures w.intervalArmed <==>
      !Permitted(env, ctx) && (env.signals.policy.None? ==> Supported(env.ctors) && env.signals.newState != Running)
    ensures w.intervalArmed || w.rejected.Some? ==> w.resumes == []
    ensures |w.resumes| <= 1
  {
    var w0 := State(ctx.Some?, env.ctors, Init, None, false, false, false, [], {}, {}, [], 0, 0);
    match Check(env, ctx)
    case Failure(e) => w0.(rejected := Some(e))
    case Success(o) =>
      var w1 := w0.(probes := ProbeCount(o.effects));
      if o.allowed then
        Done(w1)
      else if env.signals.policy.None? then
        match ContextRuns(env, None)
        case Failure(e) => w1.(rejected := Some(e))
        case Success(p) =>
          var w2 := w1.(probes := w1.probes + ProbeCount(p.effects));
          if p.allowed then Done(w2) else Arm(w2)
      else
        Arm(w1)
  }

  /** True when `check()` without a context answers "allowed" under these signals. */
  predicate Allows(ctors: Constructors, s: Signals) {
    var r := Check(Env(ctors, s), None);
    r.Success? && r.value.allowed
  }

  /**
   * One event. A listener fires at most once (`once: true`) and calls `done`;
   * a tick re-runs `check()` without the supplied context and calls `done` on
   * "allowed" (a throwing `check()` only aborts that tick); a successful
   * resume clears the interval and, while still `init`, resolves with the
   * resumed context; a failed resume is only logged.
   */
  function Step(w: State, e: Event): (w': State)
    ensures w'.supplied == w.supplied && w'.ctors == w.ctors
    ensures w.resumes <= w'.resumes && w.resolved <= w'.resolved
    ensures w'.clickArmed ==> w.clickArmed
    ensures w'.touchArmed ==> w.touchArmed
    ensures w'.intervalArmed ==> w.intervalArmed
    ensures w.phase == Resolved ==> w'.phase == Resolved
    ensures e.Settle? ==> w'.resumes == w.resumes
    ensures !e.Settle? ==> w'.phase == w.phase && w'.resolved == w.resolved && w'.settled == w.settled
  {
    match e
    case Click =>
      if w.clickArmed then Done(w.(clickArmed := false)) else w
    case TouchEnd =>
      if w.touchArmed then Done(w.(touchArmed := false)) else w
    case Tick(s) =>
      if !w.intervalArmed then
        w
      else
        (match Check(Env(w.ctors, s), None)
         case Failure(_) => w
         case Success(o) =>
           var w1 := w.(probes := w.probes + ProbeCount(o.effects));
           if o.allowed then Done(w1) else w1)
    case Settle(i, ok) =>
      if i >= |w.resumes| || i in w.settled then
        w
      else if !ok then
        w.(settled := w.settled + {i})
      else
        var w1 := w.(settled := w.settled + {i}, succeeded := w.succeeded + {i}, intervalArmed := false);
        if w1.phase == Init then w1.(phase := Resolved, resolved := w1.resolved + [w.resumes[i]]) else w1
  }

  /**
   * The state after a sequence of events: the caller's context and the
   * constructors stay as they were, resumes and resolve calls are only
   * appended to, nothing disarmed is armed again, and `resolved` is final.
   */
  function Run(w: State, es: seq<Event>): (w': State)
    ensures w'.supplied == w.supplied && w'.ctors == w.ctors
    ensures w.resumes <= w'.resumes && w.resolved <= w'.resolved
    ensures w'.clickArmed ==> w.clickArmed
    ensures w'.touchArmed ==> w.touchArmed
    ensures w'.intervalArmed ==> w.intervalArmed
    ensures w.phase == Resolved ==> w'.phase == Resolved
    decreases |es|
  {
    if es == [] then w else Run(Step(w, es[0]), es[1..])
  }

  /** The context passed to `resolve` is one whose `resume()` succeeded. */
  ghost predicate ResolvedWithResumed(w: State) {
    w.resolved != [] ==>
      exists i :: i in w.succeeded && i < |w.resumes| && w.resumes[i] == w.resolved[0]
  }

  /** Which contexts the resumes were issued on. */
  ghost predicate HandlesWellFormed(w: State) {
    && (w.supplied ==> w.made == 0 && forall i :: 0 <= i < |w.resumes| ==> w.resumes[i] == Supplied)
    && (!w.supplied ==>
          && w.made == |w.resumes|
          && forall i :: 0 <= i < |w.resumes| ==> w.resumes[i].Made? && w.resumes[i].n == i)
  }

  /** The invariant every reachable state keeps. */
  ghost predicate Inv(w: State) {
    && (forall i :: i in w.settled ==> i < |w.resumes|)
    && w.succeeded <= w.settled
    && |w.resolved| <= 1
    && (w.phase == Resolved <==> |w.resolved| == 1)
    && (w.phase == Resolved <==> w.succeeded != {})
    && ResolvedWithResumed(w)
    && (w.intervalArmed ==> w.phase == Init)
    && (w.rejected.Some? ==>
          w.phase == Init && !w.clickArmed && !w.touchArmed && !w.intervalArmed && w.resumes == [])
    && HandlesWellFormed(w)
  }
}

=== FILE: wrappers.dfy ===
/** Option and Result datatypes shared by the other modules. */
module Wrappers {

  /** A value that may be missing: a browser capability some platforms lack. */
  datatype Option<+T> = None | Some(value: T)

  /** The outcome of a call that may throw. */
  datatype Result<+R, +E> = Success(value: R) | Failure(error: E)
}
